=== FILE: README.md ===
# testprep core in Dafny

A model of the deterministic logic under the practice-test application's HTTP, AI and UI layers, with proofs about it:

- **In-memory storage** (`MemStorage`). There are three insertion-ordered maps (users, questions, attempts) and one id counter shared by all three. The store is an immutable `Storage.Store` value. `CreateUser`, `AddQuestion` and `AddAttempt` each return the next store together with the inserted record. `Storage.Valid` is the invariant every reachable store keeps:
  - the ids handed out so far are exactly 1 … counter − 1;
  - each id belongs to exactly one record, of exactly one kind;
  - every record is stored under its own id;
  - insertion order is id order.
- **Prompt selection and assembly.** This covers the two-level prompt table keyed by the printed grade and then the subject, `getPrompt`, and `generateQuestionPrompt`. The latter sets the default difficulty, filters the concept examples, formats and joins them, and adds the optional "Examples for …" section. The grade 3 and grade 4 math templates are the constants `Prompts.Grade3Math` and `Prompts.Grade4Math`.
- **Progress figures.** These are the correct and incorrect counts and the rounded success rate that the student progress card shows. The rate uses exact integer arithmetic.
- **Request helpers.** These are the pure parts of the client's `apiRequest`: endpoint cleaning and URL join, the header object, the body decision, and the response-status handling with its error-message priority.

Files, one module each:
- `wrappers.dfy`: `Option`, `Result`.
- `seqs.dfy`: `filter`, `find`, subsequences.
- `strings.dfy`: integer printing and its inverse, `startsWith`, `endsWith`, `join`.
- `insertion_map.dfy`: JavaScript `Map` and object-key semantics.
- `storage.dfy`, `prompts.dfy`, `progress.dfy`, `requests.dfy`: the four components above.

Facts about the code that the model keeps:
- Subjects are compared case-sensitively, and nothing lower-cases them at insertion or lookup (server/storage.ts:61). `Storage.SubjectMatchIsCaseSensitive` shows that "math" does not find a question stored as "Math".
- Users, questions and attempts take their ids from one shared counter (server/storage.ts:36, 53, 66, 79), so ids are unique across all three kinds.
- No record is validated on insertion (server/storage.ts:52-83).
- `createUser` does not check that a username is free (server/storage.ts:52-57).
- The `Authorization` header is sent only for a stored token that is non-null **and non-empty** (client/src/lib/queryClient.ts:16). An empty string is falsy in JavaScript.
- A success rate of 100 does not mean every attempt was correct. It means at most one attempt in 200 was wrong: 199 of 200 rounds to 100. "100 exactly when all are correct" holds only below 200 attempts (`Progress.FullRateMeansAllCorrect`).
- The rate is round-half-up of 100·correct/total, computed as `(200·c + n) / (2·n)`.

## Model

| member | source | states |
|---|---|---|
| `Storage.Init` | server/storage.ts:32-40 | A new store has empty maps and counter 1, and satisfies the store invariant. |
| `Storage.GetUser` | server/storage.ts:42-44 | Exact id lookup: a user is returned exactly when the users map has that key, and it is one of the stored users. |
| `Storage.GetUserById` | server/storage.ts:42-44 | In a valid store, the returned user has the requested id, and nothing is returned exactly when no stored user has that id. |
| `Storage.GetUserByUsername` | server/storage.ts:46-50 | Returns a stored user with exactly the given username, and every earlier-inserted user has a different name. Returns nothing exactly when no stored user has that name. |
| `Storage.CreateUser` | server/storage.ts:52-57 | The new user gets the current counter value as id and keeps the given username and password. The counter goes up by one. Questions and attempts are untouched. The user is then found by its id, and every other id's lookup is unchanged. |
| `Storage.CreateUserKeepsValid` | server/storage.ts:52-57 | From a valid store, `createUser` gives a valid store whose user list is the old list with the new user appended. |
| `Storage.GetUserByUsernameAfterCreate` | server/storage.ts:46-57 | After `createUser`, lookup by username answers as before if the name was already taken, with the new user if it takes a free name, and with nothing otherwise. |
| `Storage.DuplicateUsernamesAreStored` | server/storage.ts:52-57 | Two users with one username are both stored, under ids 1 and 2, and lookup by username returns the first. |
| `Storage.GetQuestions` | server/storage.ts:59-63 | Returns exactly the stored questions whose grade and subject are exactly equal to the query, as a subsequence of insertion order. |
| `Storage.GetQuestionsInIdOrder` | server/storage.ts:59-63 | In a valid store, the listed questions have strictly increasing ids. |
| `Storage.SubjectMatchIsCaseSensitive` | server/storage.ts:59-63 | A question stored with subject "Math" is listed for "Math" and not for "math". |
| `Storage.AddQuestion` | server/storage.ts:65-70 | The stored question is the input plus the current counter value as id. The counter goes up by one. Users and attempts are unchanged. The new id maps to the new question, and every other question id is unchanged. |
| `Storage.AddQuestionKeepsValid` | server/storage.ts:65-70 | From a valid store, `addQuestion` gives a valid store whose question list is the old list with the new question appended. |
| `Storage.GetQuestionsAfterAdd` | server/storage.ts:59-70 | After `addQuestion`, each listing is the old listing, plus the new question at its end exactly when the grade and subject match. |
| `Storage.GetAttempts` | server/storage.ts:72-76 | Returns exactly the stored attempts of that user, as a subsequence of insertion order. The result is empty exactly when the user has no attempt. |
| `Storage.GetAttemptsInIdOrder` | server/storage.ts:72-76 | In a valid store, a user's attempts have strictly increasing ids. |
| `Storage.AddAttempt` | server/storage.ts:78-83 | The stored attempt takes the current counter value as id, whatever id the caller passed, and keeps the caller's user, question, correctness and timestamp. The counter goes up by one. Users and questions are unchanged, and so is every other attempt id. |
| `Storage.AddAttemptKeepsValid` | server/storage.ts:78-83 | From a valid store, `addAttempt` gives a valid store whose attempt list is the old list with the new attempt appended. |
| `Storage.SuppliedAttemptIdIsReplaced` | server/storage.ts:78-82 | The id 0 that the evaluate route passes is replaced by the counter value, which is never 0. |
| `Storage.GetAttemptsAfterAdd` | server/storage.ts:72-82 | After `addAttempt`, the attempt is appended to its own user's list only. |
| `Storage.Apply` | server/storage.ts:52-83 | Every inserting call issues the current counter value and raises the counter by exactly one. |
| `Storage.ApplyKeepsValid` | server/storage.ts:52-83 | Every inserting call keeps the store invariant. |
| `Storage.RunIssuesConsecutiveIds` | server/storage.ts:32-83 | From a new store, the k-th insertion of any kind gets id k. So ids strictly increase and are never reused across users, questions and attempts. |
| `Storage.Run` | server/storage.ts:32-83 | A series of insertions from `new MemStorage()` hands out one id per insertion and leaves the counter one past the number of insertions. |
| `Storage.RunKeepsValid` | server/storage.ts:32-83 | Every store reached from a new one satisfies the invariant: ids are exactly 1 … counter − 1, pairwise disjoint between the kinds, and in insertion order. |
| `InsertionMap.Get` | server/storage.ts:42-44 | `Map.get` finds a value exactly when the key is present, and that value is stored under that key. |
| `InsertionMap.Set` | server/storage.ts:55 | `Map.set` makes the key map to the value and leaves other keys' values alone. A new key is appended at the end, and an existing key keeps its position. |
| `InsertionMap.Values` | server/storage.ts:47 | `Array.from(map.values())` lists one value per entry, in insertion order. The same listing is used at storage.ts:60 and 73. |
| `InsertionMap.Keys` | prompts/index.ts:46 | `Object.keys` lists one key per entry, in insertion order. The subject list at index.ts:51 uses it too. |
| `Seqs.Filter` | server/storage.ts:60-62 | `filter` returns exactly the elements satisfying the predicate, as a subsequence of the input. |
| `Seqs.FilterAppend` | server/storage.ts:60-62 | `filter` distributes over concatenation. |
| `Seqs.FilterKeepsIncreasing` | server/storage.ts:60-62 | `filter` preserves a strictly increasing key, such as the id. |
| `Seqs.Find` | server/storage.ts:47-49 | `find` returns the first element satisfying the predicate, or nothing exactly when no element does. |
| `Seqs.FindAppend` | server/storage.ts:47-49 | Appending an element changes `find`'s answer only when there was no earlier match. |
| `Strings.ParseIntToString` | prompts/index.ts:41 | Reading back an integer's decimal text gives the integer. |
| `Strings.IntToStringInjective` | prompts/index.ts:41 | Two integers print to the same text exactly when they are equal. |
| `Strings.IntToString` | prompts/index.ts:41 | `grade.toString()` on an integer is its canonical decimal: 0 prints as "0", a positive number as digits with no leading zero, and a negative one as "-" followed by digits with no leading zero. `Strings.ParseIntToString` reads it back. |
| `Strings.Join` | prompts/index.ts:70 | `join` of no strings is empty, and of at least one string starts with the first. Used for the examples and for the key lists of the error messages (index.ts:46, 51). |
| `Strings.JoinAppend` | prompts/index.ts:70 | Joining one more string adds exactly one separator before it, or gives the string alone when nothing came before. |
| `Strings.StartsWithMeansPrefix` | client/src/lib/queryClient.ts:22 | `startsWith` holds exactly when the prefix matches character by character, that is, exactly when the string is the prefix followed by some rest. |
| `Prompts.GradeKeyIsPrintedGrade` | prompts/index.ts:29-44 | The printed grade is a key of the prompt table exactly for grades 3 and 4, and each maps to its own subject table. |
| `Prompts.Grade3MathTable` | prompts/grade3/math.ts:3-60 | The grade 3 template has the concepts "Area Calculation", "Multiplication" and "Fractions" in that order, with easy and medium, easy, and medium examples. Its base text starts with "Generate a grade 3 math question" and its response format names grade 3 and "Math". |
| `Prompts.Grade4MathTable` | prompts/grade4/math.ts:3-65 | The grade 4 template has the concepts "Area and Perimeter", "Fractions and Decimals" and "Measurement" in that order, with medium and hard, two medium, and easy examples. Its base text starts with "Generate a grade 4 math question" and its response format names grade 4 and "Math". |
| `Prompts.GetPrompt` | prompts/index.ts:38-55 | Succeeds exactly for grade 3 or 4 with subject exactly "Math", and returns that grade's template. Any other grade fails with the grade error whatever the subject is. Grade 3 or 4 with another subject fails with the subject error listing "Math". |
| `Prompts.UnknownGradeMessage` | prompts/index.ts:44-47 | The grade error for grade 5 reads "No prompts found for grade 5 (available grades: 3, 4)". |
| `Prompts.ErrorMessage` | prompts/index.ts:45-51 | The grade error reads "No prompts found for grade G (available grades: 3, 4)" for every grade G. The subject error is exactly "No S prompt found for grade G" followed by the given subjects joined by ", " in parentheses. |
| `Prompts.GradeMessageNamesGrade` | prompts/index.ts:46 | Two grade errors have the same text exactly when they are for the same grade. |
| `Prompts.UnknownSubjectMessage` | prompts/index.ts:49-51 | `getPrompt(3, "math")` fails with the subject error, which reads "No math prompt found for grade 3 (available subjects: Math)". |
| `Prompts.SelectExamples` | prompts/index.ts:66-68 | Every selected example has the requested difficulty. With a non-empty concept in the table, the selection keeps table order and includes every example of that difficulty. With no concept, an empty concept or an unknown concept, nothing is selected. |
| `Prompts.EffectiveDifficulty` | prompts/index.ts:61 | A given difficulty is used as is, and a missing one becomes medium. |
| `Prompts.FormatExample` | prompts/index.ts:69 | One example is "Example: " and the question, a newline, then "Visual: " and the visual hint, with nothing else in between. |
| `Prompts.ExamplesText` | prompts/index.ts:69-70 | The joined example text is empty exactly when no example was selected, and it starts with the first example's "Example: …\nVisual: …" block. |
| `Prompts.ExamplesTextAppend` | prompts/index.ts:69-70 | Each further example is joined after one blank line. |
| `Prompts.PromptHead` | prompts/index.ts:73-75 | The part before the examples is the base text, a blank line, "Difficulty Level: " and the description of the requested difficulty, then a blank line, with nothing else. |
| `Prompts.ExamplesSection` | prompts/index.ts:77 | The section is empty exactly when the examples text is empty or there is no concept. Otherwise it is "Examples for C:" and a newline, then the examples and a newline, with nothing else. |
| `Prompts.PromptTail` | prompts/index.ts:78-80 | The part after the examples is a blank line, "Generate a question following this format:" and a newline, then the printed response format, with nothing else. |
| `Prompts.AssemblePrompt` | prompts/index.ts:73-80 | The prompt starts with the template's base text followed by the "Difficulty Level" line for the requested difficulty. It ends with the format request and the printed response format. |
| `Prompts.GenerateQuestionPrompt` | prompts/index.ts:57-81 | Fails exactly when `getPrompt` fails, with the same error. Otherwise the text is the assembled prompt for that template at the requested or default difficulty. It starts with the base text and the difficulty line, and ends with the response format. |
| `Prompts.ExamplesSectionIffSelected` | prompts/index.ts:66-77 | The "Examples for …" section is omitted exactly when no example was selected. When present, it names the concept and holds the joined examples followed by a newline. |
| `Prompts.DifficultyDefaultsToMedium` | prompts/index.ts:61 | Omitting the difficulty gives the same prompt as asking for medium. |
| `Prompts.Grade3AreaMediumExample` | prompts/grade3/math.ts:20-32 | For grade 3 "Area Calculation" at medium, only the playground example is selected. |
| `Prompts.Grade4FractionsMediumExamples` | prompts/grade4/math.ts:33-44 | For grade 4 "Fractions and Decimals" at medium, both examples are selected, in table order. |
| `Prompts.Grade3MultiplicationHasNoSection` | prompts/grade3/math.ts:33-39 | For grade 3 "Multiplication" at the default difficulty, the only example is easy, so the prompt has no examples section. |
| `Progress.CorrectCount` | client/src/components/student-progress.tsx:10 | The correct count never exceeds the number of attempts. |
| `Progress.CorrectCountAppend` | client/src/components/student-progress.tsx:10 | The correct count adds up over concatenation and is 0 for no attempts. |
| `Progress.CorrectCountSingle` | client/src/components/student-progress.tsx:10 | One attempt counts 1 exactly when it is correct. |
| `Progress.CorrectCountExtremes` | client/src/components/student-progress.tsx:10 | The correct count equals the total exactly when every attempt is correct, and is 0 exactly when none is. |
| `Progress.SuccessRate` | client/src/components/student-progress.tsx:25-27 | The rate is 0 for no attempts. Otherwise it is the whole number within one half of 100·correct/total, with halves rounded up. |
| `Progress.SuccessRateRange` | client/src/components/student-progress.tsx:25-27 | For correct ≤ total, the rate lies in [0, 100]. It is 100 exactly when 200·(total − correct) ≤ total, and 0 exactly when 200·correct < total. |
| `Progress.FullRateMeansAllCorrect` | client/src/components/student-progress.tsx:25-27 | With 1 to 199 attempts, the rate is 100 exactly when all attempts are correct. |
| `Progress.SuccessRateMonotone` | client/src/components/student-progress.tsx:25-27 | For a fixed total, more correct attempts never lower the rate. |
| `Progress.SuccessRateExamples` | client/src/components/student-progress.tsx:25-27 | 2 of 3 gives 67, 1 of 2 gives 50, 199 of 200 gives 100, and no attempts gives 0. |
| `Progress.Summarize` | client/src/components/student-progress.tsx:10-27 | The correct figure is the number of attempts with `isCorrect` set (`Progress.CorrectCount`). correct + incorrect = total, both are non-negative, and the rate is in [0, 100]. No attempts shows 0, 0 and 0%. Otherwise the rate is the rounded percentage of correct attempts. |
| `Progress.SummaryAfterAddAttempt` | client/src/components/student-progress.tsx:10-11 | Recording an attempt adds one to its user's total, and one to that user's correct count when the attempt is correct. Every other user's figures are unchanged. |
| `Requests.CleanEndpoint` | client/src/lib/queryClient.ts:22 | An endpoint starting with "/api" loses exactly those four characters. Any other endpoint is kept as is. |
| `Requests.Truthy` | client/src/lib/queryClient.ts:29 | For the modelled values, a value is falsy exactly when it is `undefined`, `null`, `false`, `0`, `NaN` or the empty string. Every object is truthy, an empty array included. |
| `Requests.BaseUrl` | client/src/lib/queryClient.ts:4 | The base URL ends with "/api" in both modes, and it is the development server's address exactly in development. |
| `Requests.RequestUrl` | client/src/lib/queryClient.ts:22-23 | The URL is the base URL followed by the cleaned endpoint. |
| `Requests.ApiPrefixIsOptional` | client/src/lib/queryClient.ts:22-23 | "/api" + e always reaches base + e, so it gives the same URL as e whenever e does not itself start with "/api". |
| `Requests.EndpointExamples` | client/src/lib/queryClient.ts:4-23 | "/api/user" and "/user" both give "/api/user". "/apix" is cleaned to "x". The development base is "http://localhost:5050/api". |
| `Requests.Headers` | client/src/lib/queryClient.ts:11-18 | Content-Type is always application/json. Authorization is present exactly when the stored token is non-null and non-empty, and then reads "Bearer " followed by the token. The keys appear in that order. |
| `Requests.Body` | client/src/lib/queryClient.ts:29 | For the modelled values, no body is sent exactly when `data` is `undefined`, `null`, `false`, `0`, `NaN` or the empty string. Otherwise the body is the stringified data. |
| `Requests.BuildRequest` | client/src/lib/queryClient.ts:26-31 | The fetch request keeps the method, sends credentials, and uses the cleaned URL. Its headers are exactly `Requests.Headers`: Content-Type, then Authorization with "Bearer " and the token when the token is non-empty. Its body is exactly `Requests.Body`: none for a falsy payload, otherwise the stringified data. |
| `Requests.BodyExamples` | client/src/lib/queryClient.ts:29 | The payloads `0`, `false`, the empty string and `undefined` send no body. The string "0", the number −1 and any object do. |
| `Requests.Or` | client/src/lib/queryClient.ts:53 | JavaScript's logical or is the first operand when that one is truthy, and otherwise the second operand. It is truthy exactly when one operand is. |
| `Requests.IsOk` | client/src/lib/queryClient.ts:49 | `res.ok` holds exactly for a 2xx status, and never for 401, so the 401 test at line 40 and the ok test do not overlap. |
| `Requests.FallbackMessage` | client/src/lib/queryClient.ts:53 | The status line starts with "Request failed with status ", and the status can be read back from the rest. The rest is exactly the status printed as a canonical decimal (`Strings.IntToString`). The same text is used at line 55. |
| `Requests.ErrorMessage` | client/src/lib/queryClient.ts:49-58 | The corrected message choice (see Findings). The message is always truthy. It is chosen in this order: `error`, then `message`, then (for a text body that is not JSON) the body text, then "Request failed with status N". A response without a body gets the status line. |
| `Requests.HandleResponse` | client/src/lib/queryClient.ts:40-58 | The response is returned without throwing exactly for status 401 or an ok status. The token is cleared exactly for 401. With the corrected message choice, every other status throws `Requests.ErrorMessage`. For the code as written, see `Requests.ErrorOutcomeAsWritten`: a text body that is not JSON then ends in body-already-read instead. |
| `Requests.ErrorOutcomeAsWritten` | client/src/lib/queryClient.ts:51-56 | As written, a JSON error body gives the chosen message. A text body that is not JSON ends in a body-already-read error. A response without a body (to HEAD, or a 304) gives the status line, because the failed `res.json()` leaves a null body usable and `res.text()` then yields "". |
| `Requests.PlainTextErrorIsLost` | client/src/lib/queryClient.ts:51-56 | For a plain-text 500 "Internal Server Error", the code as written raises body-already-read, while the corrected handling reports the text. |
| `Requests.AsWrittenDiffersOnTextBodies` | client/src/lib/queryClient.ts:51-56 | For every failing status other than 401, the written and the corrected handling disagree on every text body that is not JSON. The corrected one reports the text, or the status line when the text is empty. |
| `Requests.AsWrittenAgreesOnNoBody` | client/src/lib/queryClient.ts:51-56 | For every failing status other than 401, a response without a body throws "Request failed with status N" both as written and as corrected. |

## Left out

- Answer grading and question generation (server/openai.ts) are network calls to a language model whose output is parsed as JSON. Correctness is decided by that model, and nothing deterministic in the code compares answers, so there is nothing to model.
- Express wiring (server/routes.ts) is left out. The evaluate route looks questions up through `getQuestions(0, "")` on an unawaited promise, which is always empty, so that pipeline is not modelled.
- Authentication is left out: server/auth.ts, server/routes/auth.ts, scripts/create-user.ts, server/lib/firebase-admin.ts. It is hashing, tokens and foreign services.
- The session store and the asynchronous wrappers of the storage methods are left out. Every operation is modelled as a synchronous step.
- The UI is left out: React pages, hooks, components, and the chart in the progress card.
- Server start-up and build configuration are left out.
- `JSON.stringify` is left out. It is a parameter of `Prompts.AssemblePrompt` and `Requests.Body`, and is never interpreted.
- Payloads that are BigInts, symbols or functions are left out; `JsValue` has no such values, and every caller passes an object literal. `0n` is falsy, so it would send no body. `JSON.stringify` returns `undefined` for a function or a symbol, so no body would be sent although the payload is truthy. It throws on a BigInt or a cyclic object before `fetch` is called. `Requests.Truthy`, `Requests.Body` and `Requests.BuildRequest` describe only the modelled values.
- `new Error(message)` converting a non-string message to a string is left out. `Requests.ErrorMessage` returns the selected JavaScript value.
- A JSON error body of `null` is left out. Reading `errorData.error` throws a `TypeError`, which the `catch` at client/src/lib/queryClient.ts:54 takes. The code then calls `res.text()` on the body `res.json()` has already read. So the outcome is the same body-already-read failure as for a text body.
- Network failures of `fetch`, and the `console` logging, are left out.
- JavaScript numbers are left out. Ids and grades are unbounded integers, so the loss of precision past 2^53 is not modelled. Non-integer, `NaN` or `-0` grades are not modelled, and a grade is printed as an integer.
- The success rate is exact rational rounding. The JavaScript code divides in double precision first, so `Math.round` can differ from the exact result when 100·correct/total is exactly a half.
- Record fields of the wrong JavaScript type are left out. A question's `grade` is an integer and an attempt's `isCorrect` is a boolean. Both come from an unchecked `JSON.parse(...) as ...` of the language model's reply (server/openai.ts:71, 107). A string grade "3" would never be listed by `getQuestions`, whose `===` compares it with a number. A string "false" would count as correct, because the count filters on truthiness.
- Difficulty values outside easy, medium and hard are left out. They are possible at run time, but the types exclude them.
- Prototype keys such as "constructor" in the object lookups are left out. The tables are finite insertion-ordered maps, and the grade keys "3" and "4" are listed in the order JavaScript enumerates them.
- Extra properties of stored records are left out. `createUser`, `addQuestion` and `addAttempt` store `{ ...input, id }` (server/storage.ts:54, 67, 80), and the spread keeps every own property of the input. The register route passes `{ ...req.body, password }` (server/auth.ts:66-69), so a field such as `grade` (shared/schema.ts:9) that a client sends is stored and returned. Extra fields of the parsed language-model reply reach `addQuestion` the same way. `NewUser`, `GeneratedQuestion` and `NewAttempt` hold only the declared fields. No storage operation reads any other field, so the listings and lookups are unaffected.
- Attempt `createdAt` is an opaque integer supplied by the caller. The clock is not modelled.

## Findings

| source | as written | input that shows it | evidently intended | confidence | as-written member | corrected member |
|---|---|---|---|---|---|---|
| client/src/lib/queryClient.ts:51-56 | When `res.json()` rejects, the `catch` calls `res.text()`. The body was already consumed by the failed `res.json()`, so `res.text()` rejects too (the Fetch Standard's body-consumption rule). The request then fails with that error instead of a message. A response without a body is not affected. | A 500 response whose body is the plain text "Internal Server Error" | Throw an error whose message is the body text, or "Request failed with status 500" when the text is empty | not executed; follows from the Fetch Standard | `Requests.ErrorOutcomeAsWritten` (shown by `Requests.PlainTextErrorIsLost`) | `Requests.ErrorMessage` (always truthy, text preferred; used by `Requests.HandleResponse`) |

=== FILE: insertion_map.dfy ===
/** An insertion-ordered map, the shape of a JavaScript `Map` and of the keys
    of a plain JavaScript object: a sequence of entries in insertion order,
    each key at most once. */
module InsertionMap {
  import opened Wrappers
  import opened Seqs

  datatype Entry<K, V> = Entry(key: K, value: V)

  type OMap<K, V> = seq<Entry<K, V>>

  predicate HasKey<K(==), V>(m: OMap<K, V>, k: K) {
    exists i :: 0 <= i < |m| && m[i].key == k
  }

  /** The keys, in insertion order (`Object.keys`, `Map.prototype.keys`). */
  function Keys<K, V>(m: OMap<K, V>): (r: seq<K>)
    ensures |r| == |m|
    ensures forall i :: 0 <= i < |m| ==> r[i] == m[i].key
  {
    seq(|m|, i requires 0 <= i < |m| => m[i].key)
  }

  /** The values, in insertion order (`Array.from(map.values())`). */
  function Values<K, V>(m: OMap<K, V>): (r: seq<V>)
    ensures |r| == |m|
    ensures forall i :: 0 <= i < |m| ==> r[i] == m[i].value
  {
    seq(|m|, i requires 0 <= i < |m| => m[i].value)
  }

  lemma ValuesAppend<K, V>(m: OMap<K, V>, e: Entry<K, V>)
    ensures Values(m + [e]) == Values(m) + [e.value]
  {
    assert forall i :: 0 <= i < |m| ==> (m + [e])[i] == m[i];
  }

  /** Position of the entry with key `k`. */
  function IndexOf<K(==), V>(m: OMap<K, V>, k: K): (r: Option<nat>)
    ensures r.Some? ==> r.value < |m| && m[r.value].key == k
    ensures r.Some? ==> forall j :: 0 <= j < r.value ==> m[j].key != k
    ensures r.None? <==> !HasKey(m, k)
  {
    FirstIndex(m, (e: Entry<K, V>) => e.key == k)
  }

  /** `map.get(k)`. */
  function Get<K(==), V>(m: OMap<K, V>, k: K): (r: Option<V>)
    ensures r.Some? <==> HasKey(m, k)
    ensures r.Some? ==> exists i :: 0 <= i < |m| && m[i] == Entry(k, r.value)
  {
    match IndexOf(m, k)
    case None => None
    case Some(i) => Some(m[i].value)
  }

  lemma IndexOfAppendFresh<K, V>(m: OMap<K, V>, e: Entry<K, V>, k: K)
    requires !HasKey(m, e.key)
    ensures IndexOf(m + [e], k) == if k == e.key then Some(|m|) else IndexOf(m, k)
  {
    var r := m + [e];
    assert forall j :: 0 <= j < |m| ==> r[j] == m[j];
    assert r[|m|] == e;
    if k != e.key {
      assert HasKey(m, k) <==> HasKey(r, k);
    }
  }

  lemma IndexOfReplace<K, V>(m: OMap<K, V>, i: nat, v: V, k: K)
    requires i < |m|
    ensures IndexOf(m[i := Entry(m[i].key, v)], k) == IndexOf(m, k)
  {
    var r := m[i := Entry(m[i].key, v)];
    assert forall j :: 0 <= j < |m| ==> r[j].key == m[j].key;
    assert HasKey(m, k) <==> HasKey(r, k);
  }

  /** `map.set(k, v)`: an existing key keeps its place and takes the new value;
      a new key goes to the end. */
  function Set<K(==, !new), V>(m: OMap<K, V>, k: K, v: V): (r: OMap<K, V>)
    ensures Get(r, k) == Some(v)
    ensures forall k' :: k' != k ==> Get(r, k') == Get(m, k')
    ensures !HasKey(m, k) ==> r == m + [Entry(k, v)]
    ensures HasKey(m, k) ==> Keys(r) == Keys(m)
  {
    match IndexOf(m, k)
    case None =>
      var r := m + [Entry(k, v)];
      assert forall k' :: IndexOf(r, k') == if k' == k then Some(|m|) else IndexOf(m, k') by {
        forall k' { IndexOfAppendFresh(m, Entry(k, v), k'); }
      }
      assert forall j :: 0 <= j < |m| ==> r[j] == m[j];
      r
    case Some(i) =>
      var r := m[i := Entry(k, v)];
      assert forall k' :: IndexOf(r, k') == IndexOf(m, k') by {
        forall k' { IndexOfReplace(m, i, v, k'); }
      }
      assert Keys(r) == Keys(m);
      r
  }
}

=== FILE: progress.dfy ===
/** The numbers `StudentProgress` shows for a list of attempts: correct and
    incorrect counts and the success rate in whole percent. */
module Progress {
  import opened Seqs
  import opened Storage

  function IsCorrect(a: Attempt): (r: bool) { a.isCorrect }

  /** `attempts.filter(a => a.isCorrect).length`. */
  function CorrectCount(attempts: seq<Attempt>): (r: nat)
    ensures r <= |attempts|
  {
    |Filter(attempts, IsCorrect)|
  }

  /** The count adds up over concatenation and counts one per correct
      attempt, which together pin it down as "number of correct attempts". */
  lemma CorrectCountAppend(xs: seq<Attempt>, ys: seq<Attempt>)
    ensures CorrectCount(xs + ys) == CorrectCount(xs) + CorrectCount(ys)
    ensures CorrectCount([]) == 0
  {
    FilterAppend(xs, ys, IsCorrect);
  }

  lemma CorrectCountSingle(a: Attempt)
    ensures CorrectCount([a]) == if a.isCorrect then 1 else 0
  {
    FilterSingleton(a, IsCorrect);
  }

  /** All attempts are counted exactly when all are correct, none exactly
      when none is. */
  lemma {:induction false} CorrectCountExtremes(attempts: seq<Attempt>)
    ensures CorrectCount(attempts) == |attempts| <==> forall i :: 0 <= i < |attempts| ==> attempts[i].isCorrect
    ensures CorrectCount(attempts) == 0 <==> forall i :: 0 <= i < |attempts| ==> !attempts[i].isCorrect
    decreases |attempts|
  {
    if attempts != [] {
      var init := attempts[..|attempts| - 1];
      var last := attempts[|attempts| - 1];
      assert attempts == init + [last];
      CorrectCountAppend(init, [last]);
      CorrectCountSingle(last);
      CorrectCountExtremes(init);
      assert forall i :: 0 <= i < |init| ==> init[i] == attempts[i];
    }
  }

  /** `Math.round(correct / total * 100)` for total > 0, else 0, in exact
      arithmetic: the whole number nearest to 100 * correct / total, halves
      rounded up. */
  function SuccessRate(correct: nat, total: nat): (r: nat)
    ensures total == 0 ==> r == 0
    ensures total > 0 ==> 2 * total * r - total <= 200 * correct < 2 * total * r + total
  {
    if total > 0 then (200 * correct + total) / (2 * total) else 0
  }

  lemma MulCancelLess(t: int, x: int, y: int)
    requires t > 0 && t * x < t * y
    ensures x < y
  {
  }

  /** The rate of a real count lies in [0, 100]; it is 100 exactly when at
      most one attempt in 200 is wrong, and 0 exactly when fewer than one
      in 200 is right. */
  lemma SuccessRateRange(correct: nat, total: nat)
    requires correct <= total
    ensures SuccessRate(correct, total) <= 100
    ensures total > 0 ==> (SuccessRate(correct, total) == 100 <==> 200 * (total - correct) <= total)
    ensures total > 0 ==> (SuccessRate(correct, total) == 0 <==> 200 * correct < total)
  {
    if total > 0 {
      var r := SuccessRate(correct, total);
      var t := 2 * total;
      assert t * r - total <= 200 * correct < t * r + total;
      assert t * 101 == 202 * total && t * 99 == 198 * total && t * 1 == 2 * total;
      MulCancelLess(t, r, 101);
      if r == 100 {
        assert t * r == 200 * total;
      }
      if 200 * (total - correct) <= total {
        MulCancelLess(t, 99, r);
      }
      if r == 0 {
        assert t * r == 0;
      }
      if 200 * correct < total {
        MulCancelLess(t, r, 1);
      }
    }
  }

  /** With fewer than 200 attempts the rate is 100 only when every attempt is
      correct. */
  lemma FullRateMeansAllCorrect(correct: nat, total: nat)
    requires correct <= total && 0 < total < 200
    ensures SuccessRate(correct, total) == 100 <==> correct == total
  {
    SuccessRateRange(correct, total);
  }

  /** For a fixed number of attempts, more correct never lowers the rate. */
  lemma SuccessRateMonotone(c1: nat, c2: nat, total: nat)
    requires c1 <= c2
    ensures SuccessRate(c1, total) <= SuccessRate(c2, total)
  {
    if total > 0 {
      var r1 := SuccessRate(c1, total);
      var r2 := SuccessRate(c2, total);
      var t := 2 * total;
      assert t * r1 - total <= 200 * c1 <= 200 * c2 < t * r2 + total;
      assert t * (r2 + 1) == t * r2 + t;
      MulCancelLess(t, r1, r2 + 1);
    }
  }

  lemma SuccessRateExamples()
    ensures SuccessRate(2, 3) == 67
    ensures SuccessRate(1, 2) == 50
    ensures SuccessRate(199, 200) == 100
    ensures SuccessRate(0, 0) == 0
  {
  }

  datatype Summary = Summary(correct: nat, incorrect: int, rate: nat)

  /** The figures shown for a list of attempts. */
  function Summarize(attempts: seq<Attempt>): (r: Summary)
    ensures r.correct == CorrectCount(attempts)
    ensures r.correct + r.incorrect == |attempts|
    ensures 0 <= r.correct <= |attempts| && r.incorrect >= 0
    ensures r.rate <= 100
    ensures attempts == [] ==> r == Summary(0, 0, 0)
    ensures attempts != [] ==> 2 * |attempts| * r.rate - |attempts| <= 200 * r.correct < 2 * |attempts| * r.rate + |attempts|
  {
    var correct := CorrectCount(attempts);
    SuccessRateRange(correct, |attempts|);
    Summary(correct, |attempts| - correct, SuccessRate(correct, |attempts|))
  }

  /** Recording an attempt adds one to its user's total, one to the correct
      count when it was correct, and leaves every other user's figures alone. */
  lemma SummaryAfterAddAttempt(s: Store, a: NewAttempt, userId: int)
    requires Valid(s)
    ensures var before := GetAttempts(s, userId);
            var after := GetAttempts(AddAttempt(s, a).store, userId);
            if a.userId == userId then
              |after| == |before| + 1
              && Summarize(after).correct == Summarize(before).correct + (if a.isCorrect then 1 else 0)
            else Summarize(after) == Summarize(before)
  {
    var before := GetAttempts(s, userId);
    var added := AddAttempt(s, a).value;
    var after := GetAttempts(AddAttempt(s, a).store, userId);
    GetAttemptsAfterAdd(s, a, userId);
    if a.userId == userId {
      assert after == before + [added];
      CorrectCountAppend(before, [added]);
      CorrectCountSingle(added);
    } else {
      assert after == before;
    }
  }
}

=== FILE: prompts.dfy ===
/** Prompt selection and assembly: the grade/subject prompt table, `getPrompt`
    and `generateQuestionPrompt`. */
module Prompts {
  import opened Wrappers
  import opened Seqs
  import opened Strings
  import opened InsertionMap

  datatype Difficulty = Easy | Medium | Hard

  datatype PromptExample = PromptExample(question: string, visual: string, difficulty: Difficulty)

  /** One description per difficulty level. */
  datatype DifficultyLevels = DifficultyLevels(easy: string, medium: string, hard: string) {
    function Describe(d: Difficulty): (r: string)
      ensures d == Easy ==> r == easy
      ensures d == Medium ==> r == medium
      ensures d == Hard ==> r == hard
    {
      match d
      case Easy => easy
      case Medium => medium
      case Hard => hard
    }
  }

  /** The answer shape shown to the generator; only ever printed. */
  datatype ResponseFormat = ResponseFormat(
    question: string,
    options: seq<string>,
    answer: string,
    explanation: string,
    concept: string,
    grade: int,
    subject: string,
    difficulty: string,
    visualHint: string)

  datatype MathPrompt = MathPrompt(
    base: string,
    difficultyLevels: DifficultyLevels,
    conceptExamples: OMap<string, seq<PromptExample>>,
    responseFormat: ResponseFormat)

  const StandardInstructions: string :=
    "2. Include multiple choice options (A, B, C, D)\n"
    + "3. Have a clear correct answer\n"
    + "4. Include a detailed explanation\n"
    + "5. Focus on one core mathematical concept\n"
    + "6. Use age-appropriate language and scenarios\n"
    + "7. Include consistent units in both question and answers\n"
    + "8. Suggest visual representations where applicable"

  function ResponseFormatFor(grade: int): (r: ResponseFormat) {
    ResponseFormat(
      "The complete question text",
      ["A. option1", "B. option2", "C. option3", "D. option4"],
      "The correct option (A, B, C, or D)",
      "Detailed explanation of the solution",
      "The mathematical concept being tested",
      grade,
      "Math",
      "easy|medium|hard",
      "Suggestion for visual representation")
  }

  const Grade3Math: MathPrompt := MathPrompt(
    "Generate a grade 3 math question"
    + " following STAAR standards. The question should:\n"
    + "1. Be at appropriate difficulty level for grade 3\n"
    + StandardInstructions,
    DifficultyLevels(
      "Basic concept application with small numbers and simple operations",
      "Mixed operations or multi-step problems",
      "Complex word problems requiring multiple steps and critical thinking"),
    [ Entry("Area Calculation", [
        PromptExample(
          "A rectangular garden has 6 rows of flowers with 8 flowers in each row. What is the area of the garden in square feet if each flower needs 1 square foot of space?",
          "Draw a rectangular grid showing rows and columns of flowers",
          Easy),
        PromptExample(
          "The school playground is rectangular with a length of 15 yards and width of 12 yards. What is its area in square yards?",
          "Show a rectangle with labeled dimensions",
          Medium)]),
      Entry("Multiplication", [
        PromptExample(
          "If each student needs 3 pencils and there are 12 students, how many pencils are needed in total?",
          "Show groups of pencils",
          Easy)]),
      Entry("Fractions", [
        PromptExample(
          "Which fraction is equivalent to 2/4?",
          "Show fraction circles or bars",
          Medium)]) ],
    ResponseFormatFor(3))

  const Grade4Math: MathPrompt := MathPrompt(
    "Generate a grade 4 math question"
    + " following STAAR standards. The question should:\n"
    + "1. Be at appropriate difficulty level for grade 4\n"
    + StandardInstructions,
    DifficultyLevels(
      "Basic operations with whole numbers and simple fractions",
      "Multi-step problems with mixed operations",
      "Complex word problems involving fractions and decimals"),
    [ Entry("Area and Perimeter", [
        PromptExample(
          "A rectangular room is 15 feet long and 12 feet wide. What is both its area in square feet and its perimeter in feet?",
          "Show a rectangle with labeled dimensions and highlight both area and perimeter",
          Medium),
        PromptExample(
          "A square garden has a perimeter of 36 feet. What is its area in square feet?",
          "Draw a square with labeled side lengths",
          Hard)]),
      Entry("Fractions and Decimals", [
        PromptExample(
          "Which decimal is equivalent to 3/4?",
          "Show decimal number line or fraction circles",
          Medium),
        PromptExample(
          "If 2/5 of the students in a class of 40 are boys, how many girls are in the class?",
          "Use fraction bar model to show the whole class",
          Medium)]),
      Entry("Measurement", [
        PromptExample(
          "How many cups are in 3 quarts if 1 quart equals 4 cups?",
          "Show measurement conversion chart",
          Easy)]) ],
    ResponseFormatFor(4))

  /** The two-level table: printed grade, then subject. */
  const PromptTable: OMap<string, OMap<string, MathPrompt>> :=
    [ Entry("3", [Entry("Math", Grade3Math)]),
      Entry("4", [Entry("Math", Grade4Math)]) ]

  datatype PromptError =
    | NoGradePrompts(grade: int)
    | NoSubjectPrompt(grade: int, subject: string, availableSubjects: seq<string>)

  /** The text of the error `getPrompt` throws. The grade error always lists
      the grades "3, 4"; the subject error lists the given subjects. */
  function ErrorMessage(e: PromptError): (r: string)
    ensures e.NoGradePrompts? ==>
              r == "No prompts found for grade " + IntToString(e.grade) + " (available grades: 3, 4)"
    ensures e.NoSubjectPrompt? ==>
              StartsWith(r, "No " + e.subject + " prompt found for grade " + IntToString(e.grade))
              && EndsWith(r, " (available subjects: " + Join(e.availableSubjects, ", ") + ")")
    ensures e.NoSubjectPrompt? ==>
              |r| == |"No " + e.subject + " prompt found for grade " + IntToString(e.grade)|
                     + |" (available subjects: " + Join(e.availableSubjects, ", ") + ")"|
  {
    match e
    case NoGradePrompts(g) =>
      assert Keys(PromptTable) == ["3", "4"];
      assert Join(["3", "4"], ", ") == "3" + ", " + Join(["4"], ", ");
      "No prompts found for grade " + IntToString(g)
      + " (available grades: " + Join(Keys(PromptTable), ", ") + ")"
    case NoSubjectPrompt(g, subject, available) =>
      var head := "No " + subject + " prompt found for grade " + IntToString(g);
      var tail := " (available subjects: " + Join(available, ", ") + ")";
      ConcatEnds(head, "", tail);
      assert head + "" + tail == head + tail;
      head + tail
  }

  /** Different grades give different grade errors, since the grade is
      printed into the message. */
  lemma GradeMessageNamesGrade(a: int, b: int)
    ensures ErrorMessage(NoGradePrompts(a)) == ErrorMessage(NoGradePrompts(b)) <==> a == b
  {
    var prefix := "No prompts found for grade ";
    var suffix := " (available grades: 3, 4)";
    var ma := ErrorMessage(NoGradePrompts(a));
    var mb := ErrorMessage(NoGradePrompts(b));
    if ma == mb {
      assert ma[|prefix|..|ma| - |suffix|] == IntToString(a);
      assert mb[|prefix|..|mb| - |suffix|] == IntToString(b);
      IntToStringInjective(a, b);
    }
  }

  /** Only the strings "3" and "4" are grade keys, and they are what 3 and 4
      print as. */
  lemma GradeKeyIsPrintedGrade(grade: int)
    ensures HasKey(PromptTable, IntToString(grade)) <==> grade == 3 || grade == 4
    ensures Get(PromptTable, IntToString(grade))
         == if grade == 3 then Some([Entry("Math", Grade3Math)])
            else if grade == 4 then Some([Entry("Math", Grade4Math)])
            else None
  {
    IntToStringInjective(grade, 3);
    IntToStringInjective(grade, 4);
    assert IntToString(3) == "3" && IntToString(4) == "4";
    assert PromptTable[0].key == "3" && PromptTable[1].key == "4";
  }

  /** `getPrompt(grade, subject)`: the grade is looked up first, as printed,
      then the subject, exactly. */
  function GetPrompt(grade: int, subject: string): (r: Result<MathPrompt, PromptError>)
    ensures r.Success? <==> (grade == 3 || grade == 4) && subject == "Math"
    ensures grade != 3 && grade != 4 ==> r == Failure(NoGradePrompts(grade))
    ensures (grade == 3 || grade == 4) && subject != "Math" ==> r == Failure(NoSubjectPrompt(grade, subject, ["Math"]))
    ensures r.Success? ==> r.value == if grade == 3 then Grade3Math else Grade4Math
  {
    GradeKeyIsPrintedGrade(grade);
    match Get(PromptTable, IntToString(grade))
    case None => Failure(NoGradePrompts(grade))
    case Some(gradePrompts) =>
      match Get(gradePrompts, subject)
      case None =>
        assert Keys(gradePrompts) == ["Math"];
        Failure(NoSubjectPrompt(grade, subject, Keys(gradePrompts)))
      case Some(p) => Success(p)
  }

  /** The `difficulty` parameter defaults to medium. */
  function EffectiveDifficulty(d: Option<Difficulty>): (r: Difficulty)
    ensures d.Some? ==> r == d.value
    ensures d.None? ==> r == Medium
  {
    match d
    case None => Medium
    case Some(x) => x
  }

  function HasDifficulty(d: Difficulty): (r: PromptExample -> bool) {
    (ex: PromptExample) => ex.difficulty == d
  }

  /** The concept's examples at the requested difficulty, in table order. No
      concept, an empty concept or one missing from the table selects none. */
  function SelectExamples(p: MathPrompt, concept: Option<string>, d: Difficulty): (r: seq<PromptExample>)
    ensures forall i :: 0 <= i < |r| ==> r[i].difficulty == d
    ensures concept.None? || concept == Some("") || !HasKey(p.conceptExamples, concept.value) ==> r == []
    ensures concept.Some? && concept.value != "" && HasKey(p.conceptExamples, concept.value) ==>
              var all := Get(p.conceptExamples, concept.value).value;
              IsSubseq(r, all) && forall i :: 0 <= i < |all| && all[i].difficulty == d ==> all[i] in r
  {
    if concept.None? || concept.value == "" then []
    else match Get(p.conceptExamples, concept.value)
      case None => []
      case Some(all) =>
        var r := Filter(all, HasDifficulty(d));
        assert forall i :: 0 <= i < |all| && all[i].difficulty == d ==> all[i] in r by {
          forall i | 0 <= i < |all| && all[i].difficulty == d ensures all[i] in r {
            assert HasDifficulty(d)(all[i]);
          }
        }
        r
  }

  /** One example as two lines: the question, then the visual hint. */
  function FormatExample(ex: PromptExample): (r: string)
    ensures StartsWith(r, "Example: " + ex.question)
    ensures EndsWith(r, "\nVisual: " + ex.visual)
    ensures |r| == |"Example: " + ex.question| + |"\nVisual: " + ex.visual|
  {
    "Example: " + ex.question + "\nVisual: " + ex.visual
  }

  /** The selected examples, formatted and separated by blank lines. */
  function ExamplesText(exs: seq<PromptExample>): (r: string)
    ensures r == "" <==> exs == []
    ensures exs != [] ==> StartsWith(r, FormatExample(exs[0]))
  {
    var lines := seq(|exs|, i requires 0 <= i < |exs| => FormatExample(exs[i]));
    Join(lines, "\n\n")
  }

  /** Each further example adds a blank line and its own two lines. */
  lemma ExamplesTextAppend(exs: seq<PromptExample>, ex: PromptExample)
    ensures ExamplesText(exs + [ex])
         == if exs == [] then FormatExample(ex) else ExamplesText(exs) + "\n\n" + FormatExample(ex)
  {
    var lines := seq(|exs|, i requires 0 <= i < |exs| => FormatExample(exs[i]));
    var lines' := seq(|exs| + 1, i requires 0 <= i < |exs| + 1 => FormatExample((exs + [ex])[i]));
    assert lines' == lines + [FormatExample(ex)];
    JoinAppend(lines, FormatExample(ex), "\n\n");
  }

  /** The "Examples for ..." section, present only with a non-empty text. */
  function ExamplesSection(concept: Option<string>, examples: string): (r: string)
    ensures r == "" <==> examples == "" || concept.None?
    ensures r != "" ==>
              && StartsWith(r, "Examples for " + concept.value + ":\n")
              && EndsWith(r, examples + "\n")
              && |r| == |"Examples for " + concept.value + ":\n"| + |examples + "\n"|
  {
    if examples != "" && concept.Some? then "Examples for " + concept.value + ":\n" + examples + "\n" else ""
  }

  /** Everything before the examples section: the base text, a blank line,
      the difficulty line and another blank line. */
  function PromptHead(p: MathPrompt, d: Difficulty): (r: string)
    ensures StartsWith(r, p.base + "\n\nDifficulty Level: ")
    ensures EndsWith(r, p.difficultyLevels.Describe(d) + "\n\n")
    ensures |r| == |p.base + "\n\nDifficulty Level: "| + |p.difficultyLevels.Describe(d) + "\n\n"|
  {
    p.base + "\n\nDifficulty Level: " + p.difficultyLevels.Describe(d) + "\n\n"
  }

  /** Everything after the examples section; `stringify` stands for
      `JSON.stringify(_, null, 2)`. */
  function PromptTail(p: MathPrompt, stringify: ResponseFormat -> string): (r: string)
    ensures StartsWith(r, "\n\nGenerate a question following this format:\n")
    ensures EndsWith(r, stringify(p.responseFormat))
    ensures |r| == |"\n\nGenerate a question following this format:\n"| + |stringify(p.responseFormat)|
  {
    "\n\nGenerate a question following this format:\n" + stringify(p.responseFormat)
  }

  /** The prompt text for a selected template: head, the examples section
      (possibly empty), tail. */
  function AssemblePrompt(
    p: MathPrompt, concept: Option<string>, d: Difficulty, stringify: ResponseFormat -> string): (r: string)
    ensures StartsWith(r, PromptHead(p, d))
    ensures EndsWith(r, PromptTail(p, stringify))
  {
    var head := PromptHead(p, d);
    var section := ExamplesSection(concept, ExamplesText(SelectExamples(p, concept, d)));
    var tail := PromptTail(p, stringify);
    ConcatEnds(head, section, tail);
    head + section + tail
  }

  /** `generateQuestionPrompt(grade, subject, concept, difficulty)`. */
  function GenerateQuestionPrompt(
    grade: int, subject: string, concept: Option<string>, difficulty: Option<Difficulty>,
    stringify: ResponseFormat -> string): (r: Result<string, PromptError>)
    ensures r.Failure? <==> GetPrompt(grade, subject).Failure?
    ensures r.Failure? ==> r.error == GetPrompt(grade, subject).error
    ensures r.Success? ==>
              var p := GetPrompt(grade, subject).value;
              && StartsWith(r.value, PromptHead(p, EffectiveDifficulty(difficulty)))
              && EndsWith(r.value, PromptTail(p, stringify))
    ensures r.Success? ==>
              r.value == AssemblePrompt(GetPrompt(grade, subject).value, concept, EffectiveDifficulty(difficulty), stringify)
  {
    match GetPrompt(grade, subject)
    case Failure(e) => Failure(e)
    case Success(p) => Success(AssemblePrompt(p, concept, EffectiveDifficulty(difficulty), stringify))
  }

  /** Leaving out the difficulty is the same as asking for medium. */
  lemma DifficultyDefaultsToMedium(
    grade: int, subject: string, concept: Option<string>, stringify: ResponseFormat -> string)
    ensures GenerateQuestionPrompt(grade, subject, concept, None, stringify)
         == GenerateQuestionPrompt(grade, subject, concept, Some(Medium), stringify)
  {
  }

  /** The examples section is left out exactly when no example was selected;
      when present it names the concept and lists the selected examples. */
  lemma ExamplesSectionIffSelected(
    p: MathPrompt, concept: Option<string>, d: Difficulty, stringify: ResponseFormat -> string)
    ensures var selected := SelectExamples(p, concept, d);
            var r := AssemblePrompt(p, concept, d, stringify);
            && (r == PromptHead(p, d) + PromptTail(p, stringify) <==> selected == [])
            && (selected != [] ==>
                  r == PromptHead(p, d) + "Examples for " + concept.value + ":\n" + ExamplesText(selected) + "\n"
                       + PromptTail(p, stringify))
  {
    var selected := SelectExamples(p, concept, d);
    var head := PromptHead(p, d);
    var tail := PromptTail(p, stringify);
    var section := ExamplesSection(concept, ExamplesText(selected));
    var r := AssemblePrompt(p, concept, d, stringify);
    assert r == head + section + tail;
    if selected != [] {
      assert |r| != |head + tail|;
    }
  }

  /** Grade 3, "Area Calculation", default difficulty: only the playground
      example is medium. */
  lemma Grade3AreaMediumExample()
    ensures SelectExamples(Grade3Math, Some("Area Calculation"), Medium) == [Grade3Math.conceptExamples[0].value[1]]
  {
    var all := Grade3Math.conceptExamples[0].value;
    assert Get(Grade3Math.conceptExamples, "Area Calculation") == Some(all);
    assert Filter(all[2..], HasDifficulty(Medium)) == [];
    assert Filter(all[1..], HasDifficulty(Medium)) == [all[1]];
  }

  /** Grade 4, "Fractions and Decimals", medium: both examples, in table order. */
  lemma Grade4FractionsMediumExamples()
    ensures SelectExamples(Grade4Math, Some("Fractions and Decimals"), Medium) == Grade4Math.conceptExamples[1].value
  {
    var all := Grade4Math.conceptExamples[1].value;
    assert Grade4Math.conceptExamples[0].key != "Fractions and Decimals";
    assert Get(Grade4Math.conceptExamples, "Fractions and Decimals") == Some(all);
    assert Filter(all[2..], HasDifficulty(Medium)) == [];
    assert Filter(all[1..], HasDifficulty(Medium)) == [all[1]];
  }

  /** Grade 3, "Multiplication", default difficulty: its only example is easy,
      so the prompt has no examples section. */
  lemma Grade3MultiplicationHasNoSection(stringify: ResponseFormat -> string)
    ensures GenerateQuestionPrompt(3, "Math", Some("Multiplication"), None, stringify)
         == Success(PromptHead(Grade3Math, Medium) + PromptTail(Grade3Math, stringify))
  {
    var all := Grade3Math.conceptExamples[1].value;
    assert Grade3Math.conceptExamples[0].key != "Multiplication";
    assert Get(Grade3Math.conceptExamples, "Multiplication") == Some(all);
    assert Filter(all[1..], HasDifficulty(Medium)) == [];
    assert SelectExamples(Grade3Math, Some("Multiplication"), Medium) == [];
    ExamplesSectionIffSelected(Grade3Math, Some("Multiplication"), Medium, stringify);
  }

  /** An unknown grade is reported with the list of known grades. */
  lemma UnknownGradeMessage()
    ensures ErrorMessage(NoGradePrompts(5)) == "No prompts found for grade 5 (available grades: 3, 4)"
  {
    var five := IntToString(5);
    assert five == "5" by { assert NatToString(5) == [DigitChar(5)]; }
    var m := ErrorMessage(NoGradePrompts(5));
    assert m == "No prompts found for grade " + five + " (available grades: 3, 4)";
  }

  /** A subject in the wrong case is reported with the one known subject:
      "No math prompt found for grade 3 (available subjects: Math)". */
  lemma UnknownSubjectMessage()
    ensures GetPrompt(3, "math") == Failure(NoSubjectPrompt(3, "math", ["Math"]))
    ensures ErrorMessage(NoSubjectPrompt(3, "math", ["Math"]))
         == "No " + "math" + " prompt found for grade " + "3" + " (available subjects: " + "Math" + ")"
  {
    assert "math" != "Math" by { assert "math"[0] != "Math"[0]; }
    assert IntToString(3) == "3";
    assert Join(["Math"], ", ") == "Math";
  }

  /** The grade 3 template: its three concepts in table order, the
      difficulty of each example, and a response format for grade 3 math. */
  lemma Grade3MathTable()
    ensures Keys(Grade3Math.conceptExamples) == ["Area Calculation", "Multiplication", "Fractions"]
    ensures var c := Grade3Math.conceptExamples;
            |c[0].value| == 2 && c[0].value[0].difficulty == Easy && c[0].value[1].difficulty == Medium
            && |c[1].value| == 1 && c[1].value[0].difficulty == Easy
            && |c[2].value| == 1 && c[2].value[0].difficulty == Medium
    ensures Grade3Math.responseFormat.grade == 3 && Grade3Math.responseFormat.subject == "Math"
    ensures StartsWith(Grade3Math.base, "Generate a grade 3 math question")
  {
    var lead := "Generate a grade 3 math question";
    assert Grade3Math.base[..|lead|] == lead;
  }

  /** The grade 4 template: its three concepts in table order, the
      difficulty of each example, and a response format for grade 4 math. */
  lemma Grade4MathTable()
    ensures Keys(Grade4Math.conceptExamples) == ["Area and Perimeter", "Fractions and Decimals", "Measurement"]
    ensures var c := Grade4Math.conceptExamples;
            |c[0].value| == 2 && c[0].value[0].difficulty == Medium && c[0].value[1].difficulty == Hard
            && |c[1].value| == 2 && c[1].value[0].difficulty == Medium && c[1].value[1].difficulty == Medium
            && |c[2].value| == 1 && c[2].value[0].difficulty == Easy
    ensures Grade4Math.responseFormat.grade == 4 && Grade4Math.responseFormat.subject == "Math"
    ensures StartsWith(Grade4Math.base, "Generate a grade 4 math question")
  {
    var lead := "Generate a grade 4 math question";
    assert Grade4Math.base[..|lead|] == lead;
  }
}

=== FILE: requests.dfy ===
/** The pure parts of the client's `apiRequest`: the request URL, the
    headers, whether a body is sent, and what happens with the response
    status. */
module Requests {
  import opened Wrappers
  import opened Strings
  import opened InsertionMap

  /** The JavaScript values `data` and the fields of an error body can hold,
      as far as truthiness is concerned. `Obj` is any object or array. */
  datatype JsValue = Undefined | Null | Bool(b: bool) | Num(n: real) | NaN | Str(s: string) | Obj

  /** The falsy values: `undefined`, `null`, `false`, `0`, `NaN` and `""`.
      (`-0` is the real 0 here.) */
  const Falsy: set<JsValue> := {Undefined, Null, Bool(false), Num(0.0), NaN, Str("")}

  /** JavaScript truthiness. */
  function Truthy(v: JsValue): (r: bool)
    ensures !r <==> v in Falsy
  {
    match v
    case Undefined => false
    case Null => false
    case Bool(b) => b
    case Num(n) => n != 0.0
    case NaN => false
    case Str(s) => s != ""
    case Obj => true
  }

  /** `a || b`: the first operand when it is truthy, otherwise the second. */
  function Or(a: JsValue, b: JsValue): (r: JsValue)
    ensures Truthy(r) <==> Truthy(a) || Truthy(b)
    ensures Truthy(a) ==> r == a
    ensures !Truthy(a) ==> r == b
  {
    if Truthy(a) then a else b
  }

  /** `API_BASE_URL`: the development server, or the same origin; either way
      it ends with "/api". */
  function BaseUrl(dev: bool): (r: string)
    ensures EndsWith(r, "/api")
    ensures dev <==> StartsWith(r, "http://localhost:5050")
  {
    if dev then "http://localhost:5050/api" else "/api"
  }

  /** Drops a leading "/api", which the base URL already ends with. */
  function CleanEndpoint(endpoint: string): (r: string)
    ensures StartsWith(endpoint, "/api") ==> endpoint == "/api" + r
    ensures !StartsWith(endpoint, "/api") ==> r == endpoint
  {
    if StartsWith(endpoint, "/api") then endpoint[4..] else endpoint
  }

  function RequestUrl(dev: bool, endpoint: string): (r: string)
    ensures StartsWith(r, BaseUrl(dev))
    ensures r[|BaseUrl(dev)|..] == CleanEndpoint(endpoint)
  {
    var r := BaseUrl(dev) + CleanEndpoint(endpoint);
    assert r[..|BaseUrl(dev)|] == BaseUrl(dev);
    r
  }

  /** Writing an endpoint with or without its "/api" prefix reaches the same
      URL; only one prefix is removed. */
  lemma ApiPrefixIsOptional(dev: bool, endpoint: string)
    ensures RequestUrl(dev, "/api" + endpoint) == BaseUrl(dev) + endpoint
    ensures !StartsWith(endpoint, "/api") ==> RequestUrl(dev, "/api" + endpoint) == RequestUrl(dev, endpoint)
  {
    var e := "/api" + endpoint;
    assert e[..4] == "/api";
    assert e[4..] == endpoint;
  }

  lemma EndpointExamples()
    ensures RequestUrl(false, "/api/user") == RequestUrl(false, "/user") == "/api/user"
    ensures CleanEndpoint("/apix") == "x"
    ensures RequestUrl(true, "/questions/3/Math") == "http://localhost:5050/api/questions/3/Math"
  {
    ApiPrefixIsOptional(false, "/user");
    assert "/user"[..4][1] == 'u';
    assert "/api" + "x" == "/apix";
    ApiPrefixIsOptional(false, "x");
    assert "/questions/3/Math"[..4][1] == 'q';
  }

  /** The header object: JSON content type always, a bearer token only when
      the stored token is present and non-empty. */
  function Headers(token: Option<string>): (r: OMap<string, string>)
    ensures Get(r, "Content-Type") == Some("application/json")
    ensures HasKey(r, "Authorization") <==> token.Some? && token.value != ""
    ensures HasKey(r, "Authorization") ==> Get(r, "Authorization") == Some("Bearer " + token.value)
    ensures Keys(r) == if token.Some? && token.value != "" then ["Content-Type", "Authorization"] else ["Content-Type"]
  {
    var base := [Entry("Content-Type", "application/json")];
    if token.Some? && token.value != "" then
      var r := Set(base, "Authorization", "Bearer " + token.value);
      assert !HasKey(base, "Authorization");
      r
    else
      base
  }

  /** `data ? JSON.stringify(data) : undefined`; `stringify` stands for
      `JSON.stringify`. */
  function Body(data: JsValue, stringify: JsValue -> string): (r: Option<string>)
    ensures r.None? <==> data in Falsy
    ensures r.Some? ==> r.value == stringify(data)
  {
    if Truthy(data) then Some(stringify(data)) else None
  }

  /** A payload of `0`, `false` or `""` is dropped like a missing one, while
      the string "0" and any object, an empty array included, are sent. */
  lemma BodyExamples(stringify: JsValue -> string)
    ensures Body(Num(0.0), stringify) == Body(Bool(false), stringify) == Body(Str(""), stringify) == None
    ensures Body(Undefined, stringify) == None
    ensures Body(Str("0"), stringify) == Some(stringify(Str("0")))
    ensures Body(Num(-1.0), stringify) == Some(stringify(Num(-1.0)))
    ensures Body(Obj, stringify) == Some(stringify(Obj))
  {
  }

  datatype Request = Request(verb: string, url: string, headers: OMap<string, string>, body: Option<string>, credentials: string)

  /** The arguments `apiRequest` passes to `fetch`. */
  function BuildRequest(
    dev: bool, verb: string, endpoint: string, data: JsValue, token: Option<string>,
    stringify: JsValue -> string): (r: Request)
    ensures r.verb == verb && r.credentials == "include"
    ensures StartsWith(r.url, BaseUrl(dev)) && r.url[|BaseUrl(dev)|..] == CleanEndpoint(endpoint)
    ensures Get(r.headers, "Content-Type") == Some("application/json")
    ensures HasKey(r.headers, "Authorization") <==> token.Some? && token.value != ""
    ensures HasKey(r.headers, "Authorization") ==> Get(r.headers, "Authorization") == Some("Bearer " + token.value)
    ensures r.headers == Headers(token)
    ensures r.body == Body(data, stringify)
    ensures r.body.None? <==> data in Falsy
    ensures r.body.Some? ==> r.body.value == stringify(data)
  {
    Request(verb, RequestUrl(dev, endpoint), Headers(token), Body(data, stringify), "include")
  }

  /** `res.ok`: a 2xx status. It never holds for 401, so the order of the two
      status tests does not matter. */
  function IsOk(status: int): (r: bool)
    ensures r <==> status / 100 == 2
    ensures r ==> status != 401
  {
    200 <= status <= 299
  }

  /** What reading an error response's body yields: a parsed JSON value, seen
      through its `error` and `message` properties (`Undefined` when absent),
      text that does not parse, or no body at all (the null body of a
      response to HEAD, or of a 304). */
  datatype ErrorBody = JsonBody(error: JsValue, message: JsValue) | UnparsableBody(text: string) | NoBody

  datatype Failure =
    /** `new Error(message)` */
    | ApiError(message: JsValue)
    /** The `TypeError` of reading a response body a second time. */
    | BodyAlreadyRead

  datatype Outcome =
    /** The response is handed back; `clearsToken` says whether the stored
        token is removed (and the cached current user reset) first. */
    | Returned(clearsToken: bool)
    | Raised(failure: Failure)

  /** The status line used when the body names no error; the status can be
      read back from it. */
  function FallbackMessage(status: int): (r: string)
    ensures StartsWith(r, "Request failed with status ")
    ensures r[|"Request failed with status "|..] == IntToString(status)
    ensures ParseInt(r[|"Request failed with status "|..]) == Some(status)
  {
    var prefix := "Request failed with status ";
    var r := prefix + IntToString(status);
    assert r[|prefix|..] == IntToString(status);
    ParseIntToString(status);
    r
  }

  /** The message thrown for a failed request: the body's `error`, else its
      `message`, else (for a text body that is not JSON) its text, else the
      status line, which is also the message when there is no body. The
      message is always truthy. */
  function ErrorMessage(status: int, body: ErrorBody): (r: JsValue)
    ensures Truthy(r)
    ensures body.JsonBody? && Truthy(body.error) ==> r == body.error
    ensures body.JsonBody? && !Truthy(body.error) && Truthy(body.message) ==> r == body.message
    ensures body.JsonBody? && !Truthy(body.error) && !Truthy(body.message) ==> r == Str(FallbackMessage(status))
    ensures body.UnparsableBody? ==> r == if body.text != "" then Str(body.text) else Str(FallbackMessage(status))
    ensures body.NoBody? ==> r == Str(FallbackMessage(status))
  {
    match body
    case JsonBody(error, message) => Or(Or(error, message), Str(FallbackMessage(status)))
    case UnparsableBody(text) => Or(Str(text), Str(FallbackMessage(status)))
    case NoBody => Or(Str(""), Str(FallbackMessage(status)))
  }

  /** The status handling of `apiRequest` after `fetch` resolves: 401 comes
      back without an exception and clears the token, other failures throw,
      successes come back unchanged. */
  function HandleResponse(status: int, body: ErrorBody): (r: Outcome)
    ensures r.Returned? <==> status == 401 || IsOk(status)
    ensures r.Returned? ==> (r.clearsToken <==> status == 401)
    ensures r.Raised? ==> r.failure.ApiError? && r.failure.message == ErrorMessage(status, body)
  {
    if status == 401 then Returned(true)
    else if !IsOk(status) then Raised(ApiError(ErrorMessage(status, body)))
    else Returned(false)
  }

  /** The error path as written: when `res.json()` fails, its `catch` calls
      `res.text()` on a body the failed `res.json()` has already read, which
      rejects, so a text body never becomes the message. A null body is left
      usable by the failed `res.json()`, so `res.text()` gives "" and the
      status line is thrown. */
  function ErrorOutcomeAsWritten(status: int, body: ErrorBody): (r: Failure)
    ensures body.JsonBody? ==> r == ApiError(ErrorMessage(status, body))
    ensures body.UnparsableBody? ==> r == BodyAlreadyRead
    ensures body.NoBody? ==> r == ApiError(Str(FallbackMessage(status)))
  {
    match body
    case JsonBody(error, message) => ApiError(Or(Or(error, message), Str(FallbackMessage(status))))
    case UnparsableBody(_) => BodyAlreadyRead
    case NoBody => ApiError(Or(Str(""), Str(FallbackMessage(status))))
  }

  /** A plain-text 500 response: as written the server's text is lost behind
      a body-already-read error; the corrected path reports the text. */
  lemma PlainTextErrorIsLost()
    ensures ErrorOutcomeAsWritten(500, UnparsableBody("Internal Server Error")) == BodyAlreadyRead
    ensures HandleResponse(500, UnparsableBody("Internal Server Error")) == Raised(ApiError(Str("Internal Server Error")))
  {
  }

  /** For every failing status other than 401 and every text body that is
      not JSON, the written path and the corrected path disagree. */
  lemma AsWrittenDiffersOnTextBodies(status: int, text: string)
    requires status != 401 && !IsOk(status)
    ensures HandleResponse(status, UnparsableBody(text)).failure != ErrorOutcomeAsWritten(status, UnparsableBody(text))
    ensures HandleResponse(status, UnparsableBody(text)).failure.message
         == if text != "" then Str(text) else Str(FallbackMessage(status))
  {
  }

  /** A response without a body (to HEAD, or a 304) reaches the status line
      both as written and as corrected. */
  lemma AsWrittenAgreesOnNoBody(status: int)
    requires status != 401 && !IsOk(status)
    ensures HandleResponse(status, NoBody) == Raised(ErrorOutcomeAsWritten(status, NoBody))
    ensures ErrorOutcomeAsWritten(status, NoBody) == ApiError(Str(FallbackMessage(status)))
  {
  }
}

=== FILE: seqs.dfy ===
/** The array operations the storage and prompt code rely on (`filter`, `find`), over
    sequences, with the order facts needed to speak about insertion order. */
module Seqs {
  import opened Wrappers

  /** `xs` occurs in `ys` in the same order, possibly with gaps. */
  ghost predicate IsSubseq<T>(xs: seq<T>, ys: seq<T>)
    decreases |ys|
  {
    if xs == [] then true
    else if ys == [] then false
    else (xs[0] == ys[0] && IsSubseq(xs[1..], ys[1..])) || IsSubseq(xs, ys[1..])
  }

  /** `key` strictly increases along `xs`. */
  ghost predicate StrictlyIncreasing<T>(xs: seq<T>, key: T -> int) {
    forall i, j :: 0 <= i < j < |xs| ==> key(xs[i]) < key(xs[j])
  }

  /** `Array.prototype.filter`: the elements satisfying `p`, in their order. */
  function Filter<T>(xs: seq<T>, p: T -> bool): (r: seq<T>)
    ensures |r| <= |xs|
    ensures forall i :: 0 <= i < |r| ==> r[i] in xs && p(r[i])
    ensures forall i :: 0 <= i < |xs| && p(xs[i]) ==> xs[i] in r
    ensures IsSubseq(r, xs)
  {
    if xs == [] then []
    else if p(xs[0]) then [xs[0]] + Filter(xs[1..], p)
    else Filter(xs[1..], p)
  }

  /** Filtering distributes over concatenation; with the one-element case this
      determines `Filter` completely. */
  lemma {:induction false} FilterAppend<T>(xs: seq<T>, ys: seq<T>, p: T -> bool)
    ensures Filter(xs + ys, p) == Filter(xs, p) + Filter(ys, p)
  {
    if xs == [] {
      assert xs + ys == ys;
    } else {
      assert (xs + ys)[1..] == xs[1..] + ys;
      FilterAppend(xs[1..], ys, p);
    }
  }

  lemma FilterSingleton<T>(x: T, p: T -> bool)
    ensures Filter([x], p) == if p(x) then [x] else []
  {
    assert [x][1..] == [];
  }

  /** Filtering keeps any strictly increasing key strictly increasing. */
  lemma {:induction false} FilterKeepsIncreasing<T>(xs: seq<T>, p: T -> bool, key: T -> int)
    requires StrictlyIncreasing(xs, key)
    ensures StrictlyIncreasing(Filter(xs, p), key)
  {
    if xs != [] {
      var tail := xs[1..];
      assert StrictlyIncreasing(tail, key) by {
        forall i, j | 0 <= i < j < |tail|
          ensures key(tail[i]) < key(tail[j])
        {
          assert tail[i] == xs[i + 1] && tail[j] == xs[j + 1];
        }
      }
      FilterKeepsIncreasing(tail, p, key);
      if p(xs[0]) {
        var rest := Filter(tail, p);
        forall k | 0 <= k < |rest|
          ensures key(xs[0]) < key(rest[k])
        {
          var j :| 0 <= j < |tail| && tail[j] == rest[k];
          assert xs[j + 1] == rest[k];
        }
        var r := [xs[0]] + rest;
        forall i, j | 0 <= i < j < |r|
          ensures key(r[i]) < key(r[j])
        {
          assert r[j] == rest[j - 1];
          if i > 0 {
            assert r[i] == rest[i - 1];
          }
        }
      }
    }
  }

  /** Index of the first element satisfying `p`. */
  function FirstIndex<T>(xs: seq<T>, p: T -> bool): (r: Option<nat>)
    ensures r.Some? ==> r.value < |xs| && p(xs[r.value])
    ensures r.Some? ==> forall j :: 0 <= j < r.value ==> !p(xs[j])
    ensures r.None? <==> forall j :: 0 <= j < |xs| ==> !p(xs[j])
  {
    if xs == [] then None
    else if p(xs[0]) then Some(0)
    else match FirstIndex(xs[1..], p)
      case None => None
      case Some(i) => Some(i + 1)
  }

  /** `Array.prototype.find`: the first element satisfying `p`, if any. */
  function Find<T>(xs: seq<T>, p: T -> bool): (r: Option<T>)
    ensures r.Some? ==> r.value in xs && p(r.value)
    ensures r.Some? ==> exists i :: 0 <= i < |xs| && xs[i] == r.value && forall j :: 0 <= j < i ==> !p(xs[j])
    ensures r.None? <==> forall i :: 0 <= i < |xs| ==> !p(xs[i])
  {
    match FirstIndex(xs, p)
    case None => None
    case Some(i) => Some(xs[i])
  }

  /** Appending an element changes the first match only when there was none. */
  lemma FindAppend<T>(xs: seq<T>, x: T, p: T -> bool)
    ensures Find(xs + [x], p) == if Find(xs, p).Some? then Find(xs, p) else if p(x) then Some(x) else None
  {
    var ys := xs + [x];
    match FirstIndex(xs, p)
    case Some(i) =>
      assert forall j :: 0 <= j < |xs| ==> ys[j] == xs[j];
    case None =>
      assert forall j :: 0 <= j < |xs| ==> ys[j] == xs[j];
      assert ys[|xs|] == x;
  }
}

=== FILE: storage.dfy ===
/** `MemStorage`: three insertion-ordered maps (users, questions, attempts) and
    one id counter shared by all three. The store is a value; every operation
    that adds a record returns the next store together with the record. */
module Storage {
  import opened Wrappers
  import opened Seqs
  import opened InsertionMap

  datatype User = User(id: int, username: string, password: string)

  /** The argument of `createUser`: a user without an id. */
  datatype NewUser = NewUser(username: string, password: string)

  /** A question as the generator returns it. */
  datatype GeneratedQuestion = GeneratedQuestion(
    question: string,
    options: seq<string>,
    answer: string,
    explanation: string,
    concept: string,
    grade: int,
    subject: string)

  /** A generated question plus the id the store gave it. */
  datatype StoredQuestion = StoredQuestion(id: int, content: GeneratedQuestion)

  /** `createdAt` is the caller's timestamp, kept as an opaque integer. */
  datatype Attempt = Attempt(id: int, userId: int, questionId: int, isCorrect: bool, createdAt: int)

  /** The argument of `addAttempt`. The type says it has no id, but callers
      may pass one anyway (the evaluate route passes 0); it is ignored. */
  datatype NewAttempt = NewAttempt(id: Option<int>, userId: int, questionId: int, isCorrect: bool, createdAt: int)

  datatype Store = Store(
    users: OMap<int, User>,
    questions: OMap<int, StoredQuestion>,
    attempts: OMap<int, Attempt>,
    currentId: int)

  /** The store after an insertion, and the record that was inserted. */
  datatype Step<T> = Step(store: Store, value: T)

  function UserId(u: User): (r: int) { u.id }
  function QuestionId(q: StoredQuestion): (r: int) { q.id }
  function AttemptId(a: Attempt): (r: int) { a.id }

  ghost function KeySet<V>(m: OMap<int, V>): (r: set<int>) {
    set i | 0 <= i < |m| :: m[i].key
  }

  /** Every id held by a record of any kind. */
  ghost function AllIds(s: Store): (r: set<int>) {
    KeySet(s.users) + KeySet(s.questions) + KeySet(s.attempts)
  }

  ghost predicate KeysIncreasing<V>(m: OMap<int, V>) {
    forall i, j :: 0 <= i < j < |m| ==> m[i].key < m[j].key
  }

  /** Every record is stored under its own id. */
  ghost predicate StoredUnderOwnId<V>(m: OMap<int, V>, idOf: V -> int) {
    forall i :: 0 <= i < |m| ==> idOf(m[i].value) == m[i].key
  }

  /** What every reachable store satisfies: the ids handed out so far are
      exactly 1, ..., currentId - 1, each used by exactly one record of one
      kind, each record is stored under its own id, and each map holds its
      records in increasing id order. */
  ghost predicate Valid(s: Store) {
    && s.currentId >= 1
    && (forall id :: id in AllIds(s) <==> 1 <= id < s.currentId)
    && KeySet(s.users) !! KeySet(s.questions)
    && KeySet(s.users) !! KeySet(s.attempts)
    && KeySet(s.questions) !! KeySet(s.attempts)
    && KeysIncreasing(s.users) && KeysIncreasing(s.questions) && KeysIncreasing(s.attempts)
    && StoredUnderOwnId(s.users, UserId)
    && StoredUnderOwnId(s.questions, QuestionId)
    && StoredUnderOwnId(s.attempts, AttemptId)
  }

  /** `new MemStorage()`. */
  function Init(): (s: Store)
    ensures Valid(s)
    ensures s.currentId == 1
    ensures Values(s.users) == [] && Values(s.questions) == [] && Values(s.attempts) == []
  {
    Store([], [], [], 1)
  }

  /** `getUser(id)`. */
  function GetUser(s: Store, id: int): (r: Option<User>)
    ensures r.Some? <==> HasKey(s.users, id)
    ensures r.Some? ==> r.value in Values(s.users)
  {
    Get(s.users, id)
  }

  function UsernameIs(username: string): (r: User -> bool) {
    (u: User) => u.username == username
  }

  /** `getUserByUsername(username)`: the first user, in insertion order, whose
      username is exactly `username`. */
  function GetUserByUsername(s: Store, username: string): (r: Option<User>)
    ensures r.Some? ==> r.value in Values(s.users) && r.value.username == username
    ensures r.Some? ==> (exists i :: 0 <= i < |s.users| && Values(s.users)[i] == r.value &&
                                     forall j :: 0 <= j < i ==> Values(s.users)[j].username != username)
    ensures r.None? <==> forall i :: 0 <= i < |s.users| ==> Values(s.users)[i].username != username
  {
    Find(Values(s.users), UsernameIs(username))
  }

  /** `createUser(u)`: takes the current counter value as the id. Usernames
      are not checked for uniqueness. */
  function CreateUser(s: Store, u: NewUser): (r: Step<User>)
    ensures r.value.id == s.currentId
    ensures r.value.username == u.username && r.value.password == u.password
    ensures r.store.currentId == s.currentId + 1
    ensures r.store.questions == s.questions && r.store.attempts == s.attempts
    ensures GetUser(r.store, r.value.id) == Some(r.value)
    ensures forall id :: id != r.value.id ==> GetUser(r.store, id) == GetUser(s, id)
  {
    var id := s.currentId;
    var user := User(id, u.username, u.password);
    Step(s.(users := Set(s.users, id, user), currentId := id + 1), user)
  }

  function QuestionMatches(grade: int, subject: string): (r: StoredQuestion -> bool) {
    (q: StoredQuestion) => q.content.grade == grade && q.content.subject == subject
  }

  /** `getQuestions(grade, subject)`: the stored questions with exactly this
      grade and exactly this subject (case-sensitive), in insertion order. */
  function GetQuestions(s: Store, grade: int, subject: string): (r: seq<StoredQuestion>)
    ensures forall i :: 0 <= i < |r| ==>
              r[i] in Values(s.questions) && r[i].content.grade == grade && r[i].content.subject == subject
    ensures forall q :: q in Values(s.questions) && q.content.grade == grade && q.content.subject == subject ==> q in r
    ensures IsSubseq(r, Values(s.questions))
  {
    var vs := Values(s.questions);
    var r := Filter(vs, QuestionMatches(grade, subject));
    assert forall q :: q in vs && q.content.grade == grade && q.content.subject == subject ==> q in r by {
      forall q | q in vs && q.content.grade == grade && q.content.subject == subject
        ensures q in r
      {
        var i :| 0 <= i < |vs| && vs[i] == q;
        assert QuestionMatches(grade, subject)(vs[i]);
      }
    }
    r
  }

  /** `addQuestion(q)`: stores `q` with the current counter value as its id. */
  function AddQuestion(s: Store, q: GeneratedQuestion): (r: Step<StoredQuestion>)
    ensures r.value.id == s.currentId && r.value.content == q
    ensures r.store.currentId == s.currentId + 1
    ensures r.store.users == s.users && r.store.attempts == s.attempts
    ensures Get(r.store.questions, r.value.id) == Some(r.value)
    ensures forall id :: id != r.value.id ==> Get(r.store.questions, id) == Get(s.questions, id)
  {
    var id := s.currentId;
    var stored := StoredQuestion(id, q);
    Step(s.(questions := Set(s.questions, id, stored), currentId := id + 1), stored)
  }

  function AttemptBy(userId: int): (r: Attempt -> bool) {
    (a: Attempt) => a.userId == userId
  }

  /** `getAttempts(userId)`: that user's attempts in insertion order; empty,
      not an error, when there are none. */
  function GetAttempts(s: Store, userId: int): (r: seq<Attempt>)
    ensures forall i :: 0 <= i < |r| ==> r[i] in Values(s.attempts) && r[i].userId == userId
    ensures forall a :: a in Values(s.attempts) && a.userId == userId ==> a in r
    ensures IsSubseq(r, Values(s.attempts))
    ensures r == [] <==> forall i :: 0 <= i < |s.attempts| ==> Values(s.attempts)[i].userId != userId
  {
    var vs := Values(s.attempts);
    var r := Filter(vs, AttemptBy(userId));
    assert forall i :: 0 <= i < |vs| && vs[i].userId == userId ==> vs[i] in r by {
      forall i | 0 <= i < |vs| && vs[i].userId == userId
        ensures vs[i] in r
      {
        assert AttemptBy(userId)(vs[i]);
      }
    }
    r
  }

  /** `addAttempt(a)`: the current counter value replaces whatever id the
      caller passed. */
  function AddAttempt(s: Store, a: NewAttempt): (r: Step<Attempt>)
    ensures r.value.id == s.currentId
    ensures r.value.userId == a.userId && r.value.questionId == a.questionId
    ensures r.value.isCorrect == a.isCorrect && r.value.createdAt == a.createdAt
    ensures r.store.currentId == s.currentId + 1
    ensures r.store.users == s.users && r.store.questions == s.questions
    ensures Get(r.store.attempts, r.value.id) == Some(r.value)
    ensures forall id :: id != r.value.id ==> Get(r.store.attempts, id) == Get(s.attempts, id)
  {
    var id := s.currentId;
    var attempt := Attempt(id, a.userId, a.questionId, a.isCorrect, a.createdAt);
    Step(s.(attempts := Set(s.attempts, id, attempt), currentId := id + 1), attempt)
  }

  /** Inserting under a key above every existing key appends, and keeps the
      keys increasing and every record under its own id. */
  lemma FreshAppend<V>(m: OMap<int, V>, v: V, n: int, idOf: V -> int)
    requires KeysIncreasing(m) && StoredUnderOwnId(m, idOf)
    requires forall i :: 0 <= i < |m| ==> m[i].key < n
    requires idOf(v) == n
    ensures !HasKey(m, n)
    ensures Set(m, n, v) == m + [Entry(n, v)]
    ensures KeysIncreasing(Set(m, n, v)) && StoredUnderOwnId(Set(m, n, v), idOf)
    ensures KeySet(Set(m, n, v)) == KeySet(m) + {n}
    ensures Values(Set(m, n, v)) == Values(m) + [v]
  {
    var r := m + [Entry(n, v)];
    assert forall i :: 0 <= i < |m| ==> r[i] == m[i];
    assert r[|m|] == Entry(n, v);
    assert KeySet(r) == KeySet(m) + {n} by {
      forall id | id in KeySet(r) ensures id in KeySet(m) + {n} {
        var i :| 0 <= i < |r| && r[i].key == id;
        if i < |m| { assert m[i].key == id; }
      }
      forall id | id in KeySet(m) + {n} ensures id in KeySet(r) {
        if id != n {
          var i :| 0 <= i < |m| && m[i].key == id;
          assert r[i].key == id;
        } else {
          assert r[|m|].key == id;
        }
      }
    }
    ValuesAppend(m, Entry(n, v));
  }

  /** Every key of a map of a valid store is below the counter. */
  lemma KeysBelowCounter<V>(m: OMap<int, V>, s: Store)
    requires Valid(s)
    requires KeySet(m) <= AllIds(s)
    ensures forall i :: 0 <= i < |m| ==> m[i].key < s.currentId
  {
    forall i | 0 <= i < |m| ensures m[i].key < s.currentId {
      assert m[i].key in KeySet(m);
    }
  }

  /** `createUser` keeps the store valid and appends the new user. */
  lemma CreateUserKeepsValid(s: Store, u: NewUser)
    requires Valid(s)
    ensures Valid(CreateUser(s, u).store)
    ensures Values(CreateUser(s, u).store.users) == Values(s.users) + [CreateUser(s, u).value]
  {
    var r := CreateUser(s, u);
    KeysBelowCounter(s.users, s);
    FreshAppend(s.users, r.value, s.currentId, UserId);
    assert s.currentId !in KeySet(s.questions) + KeySet(s.attempts);
    assert AllIds(r.store) == AllIds(s) + {s.currentId};
  }

  /** `addQuestion` keeps the store valid and appends the new question. */
  lemma AddQuestionKeepsValid(s: Store, q: GeneratedQuestion)
    requires Valid(s)
    ensures Valid(AddQuestion(s, q).store)
    ensures Values(AddQuestion(s, q).store.questions) == Values(s.questions) + [AddQuestion(s, q).value]
  {
    var r := AddQuestion(s, q);
    KeysBelowCounter(s.questions, s);
    FreshAppend(s.questions, r.value, s.currentId, QuestionId);
    assert s.currentId !in KeySet(s.users) + KeySet(s.attempts);
    assert AllIds(r.store) == AllIds(s) + {s.currentId};
  }

  /** `addAttempt` keeps the store valid and appends the new attempt. */
  lemma AddAttemptKeepsValid(s: Store, a: NewAttempt)
    requires Valid(s)
    ensures Valid(AddAttempt(s, a).store)
    ensures Values(AddAttempt(s, a).store.attempts) == Values(s.attempts) + [AddAttempt(s, a).value]
  {
    var r := AddAttempt(s, a);
    KeysBelowCounter(s.attempts, s);
    FreshAppend(s.attempts, r.value, s.currentId, AttemptId);
    assert s.currentId !in KeySet(s.users) + KeySet(s.questions);
    assert AllIds(r.store) == AllIds(s) + {s.currentId};
  }

  /** One of the three inserting calls. */
  datatype Insert = InsertUser(u: NewUser) | InsertQuestion(q: GeneratedQuestion) | InsertAttempt(a: NewAttempt)

  /** Performs one insertion and reports the id it handed out. */
  function Apply(s: Store, op: Insert): (r: Step<int>)
    ensures r.value == s.currentId && r.store.currentId == s.currentId + 1
  {
    match op
    case InsertUser(u) => Step(CreateUser(s, u).store, CreateUser(s, u).value.id)
    case InsertQuestion(q) => Step(AddQuestion(s, q).store, AddQuestion(s, q).value.id)
    case InsertAttempt(a) => Step(AddAttempt(s, a).store, AddAttempt(s, a).value.id)
  }

  lemma ApplyKeepsValid(s: Store, op: Insert)
    requires Valid(s)
    ensures Valid(Apply(s, op).store)
  {
    match op
    case InsertUser(u) => CreateUserKeepsValid(s, u);
    case InsertQuestion(q) => AddQuestionKeepsValid(s, q);
    case InsertAttempt(a) => AddAttemptKeepsValid(s, a);
  }

  /** A fresh store after a series of insertions, and the ids they got. */
  datatype Trace = Trace(store: Store, ids: seq<int>)

  function Run(ops: seq<Insert>): (r: Trace)
    ensures |r.ids| == |ops|
    ensures r.store.currentId == |ops| + 1
    decreases |ops|
  {
    if ops == [] then Trace(Init(), [])
    else
      var t := Run(ops[..|ops| - 1]);
      var step := Apply(t.store, ops[|ops| - 1]);
      Trace(step.store, t.ids + [step.value])
  }

  /** Starting from a fresh store, the k-th insertion of any kind gets id k,
      so ids are strictly increasing and never shared between users,
      questions and attempts. */
  lemma {:induction false} RunIssuesConsecutiveIds(ops: seq<Insert>)
    ensures Run(ops).store.currentId == |ops| + 1
    ensures |Run(ops).ids| == |ops|
    ensures forall i :: 0 <= i < |ops| ==> Run(ops).ids[i] == i + 1
    decreases |ops|
  {
    if ops != [] {
      var prefix := ops[..|ops| - 1];
      RunIssuesConsecutiveIds(prefix);
      var t := Run(prefix);
      assert Run(ops).ids == t.ids + [Apply(t.store, ops[|ops| - 1]).value];
    }
  }

  /** Every store reached from a fresh one is valid. */
  lemma {:induction false} RunKeepsValid(ops: seq<Insert>)
    ensures Valid(Run(ops).store)
    decreases |ops|
  {
    if ops != [] {
      var prefix := ops[..|ops| - 1];
      RunKeepsValid(prefix);
      ApplyKeepsValid(Run(prefix).store, ops[|ops| - 1]);
    }
  }

  /** In a valid store `getUser` finds exactly the user with that id. */
  lemma GetUserById(s: Store, id: int)
    requires Valid(s)
    ensures GetUser(s, id).Some? ==> GetUser(s, id).value.id == id
    ensures GetUser(s, id).None? <==> forall i :: 0 <= i < |s.users| ==> Values(s.users)[i].id != id
  {
    if GetUser(s, id).Some? {
      var i :| 0 <= i < |s.users| && s.users[i] == Entry(id, GetUser(s, id).value);
      assert UserId(s.users[i].value) == s.users[i].key;
    }
    forall i | 0 <= i < |s.users| && Values(s.users)[i].id == id ensures HasKey(s.users, id) {
      assert UserId(s.users[i].value) == s.users[i].key;
    }
  }

  /** In a valid store each map's values are in increasing id order. */
  lemma ValuesInIdOrder<V>(m: OMap<int, V>, idOf: V -> int)
    requires KeysIncreasing(m) && StoredUnderOwnId(m, idOf)
    ensures StrictlyIncreasing(Values(m), idOf)
  {
  }

  /** Insertion order is id order, so `getQuestions` lists by increasing id. */
  lemma GetQuestionsInIdOrder(s: Store, grade: int, subject: string)
    requires Valid(s)
    ensures StrictlyIncreasing(GetQuestions(s, grade, subject), QuestionId)
  {
    ValuesInIdOrder(s.questions, QuestionId);
    FilterKeepsIncreasing(Values(s.questions), QuestionMatches(grade, subject), QuestionId);
  }

  lemma GetAttemptsInIdOrder(s: Store, userId: int)
    requires Valid(s)
    ensures StrictlyIncreasing(GetAttempts(s, userId), AttemptId)
  {
    ValuesInIdOrder(s.attempts, AttemptId);
    FilterKeepsIncreasing(Values(s.attempts), AttemptBy(userId), AttemptId);
  }

  /** A new question shows up at the end of exactly the listings it matches. */
  lemma GetQuestionsAfterAdd(s: Store, q: GeneratedQuestion, grade: int, subject: string)
    requires Valid(s)
    ensures GetQuestions(AddQuestion(s, q).store, grade, subject)
         == GetQuestions(s, grade, subject)
          + (if q.grade == grade && q.subject == subject then [AddQuestion(s, q).value] else [])
  {
    var r := AddQuestion(s, q);
    AddQuestionKeepsValid(s, q);
    FilterAppend(Values(s.questions), [r.value], QuestionMatches(grade, subject));
    FilterSingleton(r.value, QuestionMatches(grade, subject));
  }

  /** A new attempt shows up at the end of its own user's list only. */
  lemma GetAttemptsAfterAdd(s: Store, a: NewAttempt, userId: int)
    requires Valid(s)
    ensures GetAttempts(AddAttempt(s, a).store, userId)
         == GetAttempts(s, userId) + (if a.userId == userId then [AddAttempt(s, a).value] else [])
  {
    var r := AddAttempt(s, a);
    AddAttemptKeepsValid(s, a);
    FilterAppend(Values(s.attempts), [r.value], AttemptBy(userId));
    FilterSingleton(r.value, AttemptBy(userId));
  }

  /** `createUser` with a username already taken stores a second user, and
      `getUserByUsername` keeps answering with the earlier one; with a new
      username it answers with the new user. */
  lemma GetUserByUsernameAfterCreate(s: Store, u: NewUser, username: string)
    requires Valid(s)
    ensures GetUserByUsername(CreateUser(s, u).store, username)
         == if GetUserByUsername(s, username).Some? then GetUserByUsername(s, username)
            else if u.username == username then Some(CreateUser(s, u).value)
            else None
  {
    CreateUserKeepsValid(s, u);
    FindAppend(Values(s.users), CreateUser(s, u).value, UsernameIs(username));
  }

  /** Subjects are compared exactly: a question stored under "Math" is listed
      for "Math" and not for "math". */
  lemma SubjectMatchIsCaseSensitive(q: GeneratedQuestion)
    requires q.subject == "Math"
    ensures GetQuestions(AddQuestion(Init(), q).store, q.grade, "Math") == [AddQuestion(Init(), q).value]
    ensures GetQuestions(AddQuestion(Init(), q).store, q.grade, "math") == []
  {
    GetQuestionsAfterAdd(Init(), q, q.grade, "Math");
    GetQuestionsAfterAdd(Init(), q, q.grade, "math");
  }

  /** Two users with the same username are both stored, under ids 1 and 2;
      lookup by username returns the first. */
  lemma DuplicateUsernamesAreStored(a: NewUser, b: NewUser)
    requires a.username == b.username
    ensures var s1 := CreateUser(Init(), a);
            var s2 := CreateUser(s1.store, b);
            && s1.value.id == 1 && s2.value.id == 2
            && Values(s2.store.users) == [s1.value, s2.value]
            && GetUserByUsername(s2.store, a.username) == Some(s1.value)
  {
    var s1 := CreateUser(Init(), a);
    CreateUserKeepsValid(Init(), a);
    CreateUserKeepsValid(s1.store, b);
    GetUserByUsernameAfterCreate(Init(), a, a.username);
    GetUserByUsernameAfterCreate(s1.store, b, a.username);
  }

  /** The evaluate route passes id 0; the stored attempt gets the counter. */
  lemma SuppliedAttemptIdIsReplaced(s: Store, a: NewAttempt)
    requires Valid(s) && a.id == Some(0)
    ensures AddAttempt(s, a).value.id == s.currentId != 0
  {
  }
}

=== FILE: strings.dfy ===
/** String helpers: JavaScript's `Number.prototype.toString` on integers (with
    its inverse, for injectivity), `startsWith`, `endsWith` and
    `Array.prototype.join`. */
module Strings {
  import opened Wrappers

  predicate IsDigit(c: char) {
    '0' <= c <= '9'
  }

  predicate AllDigits(s: string) {
    forall i :: 0 <= i < |s| ==> IsDigit(s[i])
  }

  function DigitChar(d: nat): (c: char)
    requires d < 10
    ensures IsDigit(c)
  {
    (48 + d) as char
  }

  function DigitValue(c: char): (r: nat)
    requires IsDigit(c)
  {
    c as int - 48
  }

  /** Decimal digits of `n`, most significant first, without leading zeros. */
  function NatToString(n: nat): (r: string)
    ensures |r| >= 1 && AllDigits(r)
    ensures |r| == 1 <==> n < 10
    ensures r[0] == '0' <==> n == 0
    decreases n
  {
    if n < 10 then [DigitChar(n)] else NatToString(n / 10) + [DigitChar(n % 10)]
  }

  /** The value of a string of decimal digits. */
  function ParseDigits(s: string): (r: nat)
    requires AllDigits(s)
    decreases |s|
  {
    if s == [] then 0 else 10 * ParseDigits(s[..|s| - 1]) + DigitValue(s[|s| - 1])
  }

  lemma {:induction false} ParseNatToString(n: nat)
    ensures ParseDigits(NatToString(n)) == n
    decreases n
  {
    var s := NatToString(n);
    if n >= 10 {
      assert s[..|s| - 1] == NatToString(n / 10);
      ParseNatToString(n / 10);
    }
  }

  /** `String(i)` for an integer-valued number: the canonical decimal, with
      no leading zero and a minus sign only for negative numbers. */
  function IntToString(i: int): (r: string)
    ensures |r| >= 1
    ensures i >= 0 <==> IsDigit(r[0])
    ensures r[0] == '0' <==> i == 0
    ensures i == 0 ==> r == "0"
    ensures i < 0 ==> |r| >= 2 && r[0] == '-' && AllDigits(r[1..]) && r[1] != '0'
    ensures i > 0 ==> AllDigits(r)
  {
    if i < 0 then "-" + NatToString(-i) else NatToString(i)
  }

  /** Reads back an optional minus sign followed by at least one digit. */
  function ParseInt(s: string): (r: Option<int>) {
    if |s| >= 2 && s[0] == '-' && AllDigits(s[1..]) then Some(0 - ParseDigits(s[1..]) as int)
    else if |s| >= 1 && AllDigits(s) then Some(ParseDigits(s))
    else None
  }

  lemma ParseIntToString(i: int)
    ensures ParseInt(IntToString(i)) == Some(i)
  {
    var s := IntToString(i);
    if i < 0 {
      assert s[1..] == NatToString(-i);
      ParseNatToString(-i);
    } else {
      ParseNatToString(i);
    }
  }

  /** Distinct integers print differently, so a table keyed by the printed
      grade is hit by exactly one integer per key. */
  lemma IntToStringInjective(a: int, b: int)
    ensures IntToString(a) == IntToString(b) <==> a == b
  {
    if IntToString(a) == IntToString(b) {
      ParseIntToString(a);
      ParseIntToString(b);
    }
  }

  /** `s.startsWith(prefix)`. */
  predicate StartsWith(s: string, prefix: string) {
    |prefix| <= |s| && s[..|prefix|] == prefix
  }

  /** `startsWith` compares character by character, and a string starts with
      a prefix exactly when it is that prefix followed by the rest. */
  lemma StartsWithMeansPrefix(s: string, prefix: string)
    ensures StartsWith(s, prefix) <==> |prefix| <= |s| && forall i :: 0 <= i < |prefix| ==> s[i] == prefix[i]
    ensures StartsWith(s, prefix) <==> exists rest :: s == prefix + rest
  {
    if StartsWith(s, prefix) {
      assert s == prefix + s[|prefix|..];
    }
    if |prefix| <= |s| && forall i :: 0 <= i < |prefix| ==> s[i] == prefix[i] {
      assert s[..|prefix|] == prefix;
    }
  }

  predicate EndsWith(s: string, suffix: string) {
    |suffix| <= |s| && s[|s| - |suffix|..] == suffix
  }

  lemma ConcatEnds(head: string, middle: string, tail: string)
    ensures StartsWith(head + middle + tail, head)
    ensures EndsWith(head + middle + tail, tail)
  {
    var r := head + middle + tail;
    assert r[..|head|] == head;
    assert r[|r| - |tail|..] == tail;
  }

  /** `Array.prototype.join` on strings. */
  function Join(xs: seq<string>, sep: string): (r: string)
    ensures xs == [] ==> r == ""
    ensures xs != [] ==> StartsWith(r, xs[0])
    decreases |xs|
  {
    if xs == [] then ""
    else if |xs| == 1 then xs[0]
    else xs[0] + sep + Join(xs[1..], sep)
  }

  /** Joining one more element puts one separator before it. */
  lemma {:induction false} JoinAppend(xs: seq<string>, x: string, sep: string)
    ensures Join(xs + [x], sep) == if xs == [] then x else Join(xs, sep) + sep + x
    decreases |xs|
  {
    if |xs| >= 2 {
      assert (xs + [x])[1..] == xs[1..] + [x];
      JoinAppend(xs[1..], x, sep);
    } else if |xs| == 1 {
      assert (xs + [x])[1..] == [x];
    }
  }
}

=== FILE: wrappers.dfy ===
/** Optional values and results with an error, used for lookups that can miss
    and for the operations that throw in JavaScript. */
module Wrappers {

  datatype Option<+T> = None | Some(value: T)

  datatype Result<+R, +E> = Success(value: R) | Failure(error: E)
}
